=== FILE: README.md ===
# InfiniTAM orchestration and frame readers, modelled in Dafny

This project models the control layer of InfiniTAM's `ITMMainEngine` and the two file-based frame
readers `ImageFileReader` and `RawFileReader`. These are the parts of the dense-reconstruction
pipeline that decide *what runs when*:

- the `fusionActive` / `mainProcessingActive` modes and how they gate the per-frame stages
  build view → track → (read pose file) → fuse → prepare raycast;
- the one-shot latch that stores the first frame's file pose and expresses every later pose
  relative to it;
- `GetImage`'s dispatch, and the free-view render state it creates lazily;
- the derived file names: the pose file next to a depth image, and the PNG/PGM names built
  from `INPUT_DIR` and a formatted mask;
- the readers' one-frame cache: which frame is cached, how a probe (`hasMoreImages`) loads it,
  and how `getImages` / `my_getImages` hand the images over and advance the frame number.

Everything is functional. Engine and reader states are immutable records. Every operation is a
function that returns the new state, plus an event trace, a picture, or the delivered images.
The heavy stages are opaque:

- Tracking, fusion, raycasting and rendering appear only as events or picture contents.
- Images are either `Blank` (allocated, never filled) or `Loaded(file)`.
- Poses are symbolic: `PoseOf(file)`, or `Relative(current, reference)` for `current · reference⁻¹`.

Files:

- `wrappers.dfy`: `Option`, the nullable slot.
- `file_names.dfy` (module `FileNames`): the string derivations. It also has a step-by-step
  simulation of the source's 100-byte pose-name buffer, proved equal to the pure definition.
- `frames.dfy` (module `Frames`): images, the `sprintf` formatter parameter, and direct reads.
- `image_file_reader.dfy`, `raw_file_reader.dfy`: the two readers and their cache protocols.
- `main_engine.dfy` (module `MainEngine`): construction, toggles, `ProcessFrame`, `GetImage`.
- `engine_sessions.dfy` (module `EngineSessions`): properties over runs of frames and series
  of image requests.

Inputs the source obtains from the outside are parameters:

- Each file read's success is a `bool`. For the raw reader, each read is the `fopen`/`fread`
  outcome: `None`, or the element count returned.
- `sprintf(str, mask, frameNo)` is a formatter function `(string, int) -> string`.
- The tracked image size chosen by the tracking controller is a function of the colour and
  depth sizes.
- `INPUT_DIR` is a field of the image reader.

Three facts about the code shape the model:

- The pose of a frame is read from a file whose name is derived from the depth file name;
  it is not passed in.
- The latched first and last poses are computed, but they are never written back into the
  tracking state (that write is commented out). The model records them and nothing more.
- `ImageFileReader::loadIntoCache` returns before its 16-bit depth read. As a result
  `cached_depth` always holds a freshly allocated, never-filled image after a load, and
  `getImages` delivers that blank image.

## Model

| member | source | states |
|---|---|---|
| MainEngine.DepthSizeOrDefault | InfiniTAM/ITMLib/Engine/ITMMainEngine.cpp:13 | a depth size with -1 in either component becomes the colour size; any other depth size is kept |
| MainEngine.Create | InfiniTAM/ITMLib/Engine/ITMMainEngine.cpp:7-69 | a new engine has both modes on, no view, no free-view render state, the latch unset, and a live raycast image of the tracked size of the colour and (defaulted) depth sizes |
| MainEngine.TurnOnIntegration | InfiniTAM/ITMLib/Engine/ITMMainEngine.cpp:357 | sets fusionActive; main processing and every other part of the state are unchanged |
| MainEngine.TurnOffIntegration | InfiniTAM/ITMLib/Engine/ITMMainEngine.cpp:358 | clears fusionActive; everything else unchanged |
| MainEngine.TurnOnMainProcessing | InfiniTAM/ITMLib/Engine/ITMMainEngine.cpp:359 | sets mainProcessingActive; fusion and everything else unchanged |
| MainEngine.TurnOffMainProcessing | InfiniTAM/ITMLib/Engine/ITMMainEngine.cpp:360 | clears mainProcessingActive; everything else unchanged |
| MainEngine.FrameTrace | InfiniTAM/ITMLib/Engine/ITMMainEngine.cpp:111-281 | a frame's stage calls are in pipeline order with no repeats and belong to this frame. The view is built iff no IMU measurement came. Track, the pose-file read and raycast preparation happen iff main processing is on. Fusion happens iff main processing and integration are both on |
| MainEngine.ProcessFrame | InfiniTAM/ITMLib/Engine/ITMMainEngine.cpp:111-290 | the frame leaves modes and render states alone and rebuilds the view unless an IMU came. With main processing off the latch is untouched. On the first processed frame the latch is set and firstPose becomes the frame's file pose. Later frames keep firstPose and set lastPose to the file pose relative to firstPose |
| MainEngine.RenderTypeOf | InfiniTAM/ITMLib/Engine/ITMMainEngine.cpp:338-340 | colour-from-volume, colour-from-normal and shaded free-camera requests select exactly the matching render mode |
| MainEngine.GetImage | InfiniTAM/ITMLib/Engine/ITMMainEngine.cpp:297-355 | without a view the engine and the output are untouched. Otherwise only the free-view state may change: an existing one is kept, and a missing one is created with the output's size iff the request is a free-camera one. The picture is the view's colour image, the depth or depth-uncertainty image, the live raycast, a cleared image, or a free render in the mapped mode |
| EngineSessions.FrameWithIntegrationOff | InfiniTAM/ITMLib/Engine/ITMMainEngine.cpp:277-281 | with integration off a processed frame is still tracked and its raycast prepared, but it is not fused |
| EngineSessions.Run | InfiniTAM/ITMLib/Engine/ITMMainEngine.cpp:111-290 | a run of frames never changes the modes or the render states |
| EngineSessions.IntegrationOffNeverFuses | InfiniTAM/ITMLib/Engine/ITMMainEngine.cpp:278 | with integration off, no frame of any run emits a fusion event |
| EngineSessions.MainProcessingOffOnlyBuildsViews | InfiniTAM/ITMLib/Engine/ITMMainEngine.cpp:115-129 | with main processing off, a run's trace is exactly one view build per frame without an IMU measurement, in order, and the pose latch is unchanged |
| EngineSessions.LatchedPoseStays | InfiniTAM/ITMLib/Engine/ITMMainEngine.cpp:251-255 | once set, the latch stays set and firstPose is never written again |
| EngineSessions.FirstPoseLatchedOnce | InfiniTAM/ITMLib/Engine/ITMMainEngine.cpp:250-255 | from an unlatched engine with main processing on, the run's first frame's pose becomes firstPose and the latch is set for the rest of the run |
| EngineSessions.LastPoseRelativeToFirstFrame | InfiniTAM/ITMLib/Engine/ITMMainEngine.cpp:250-272 | from an unlatched engine, after two or more frames lastPose is the last frame's pose relative to the first frame's pose |
| EngineSessions.LastPoseFollowsLatestFrame | InfiniTAM/ITMLib/Engine/ITMMainEngine.cpp:256-272 | on a latched engine lastPose is rewritten on every frame and ends as the latest frame's pose relative to firstPose |
| EngineSessions.FreeviewCreatedAtMostOnce | InfiniTAM/ITMLib/Engine/ITMMainEngine.cpp:334-345 | over any series of image requests, an existing free-view state is never replaced. Without one, the first free-camera request creates it with that request's output size, and no other request ever does. Nothing else in the engine changes |
| EngineSessions.NoViewNoChange | InfiniTAM/ITMLib/Engine/ITMMainEngine.cpp:299 | before any view exists, no series of image requests changes the engine |
| EngineSessions.ToggleLaws | InfiniTAM/ITMLib/Engine/ITMMainEngine.cpp:357-360 | the last toggle of a flag decides it; toggles of different flags commute; each toggle is idempotent |
| EngineSessions.PauseKeepsLatch | InfiniTAM/ITMLib/Engine/ITMMainEngine.cpp:129 | pausing main processing over any frames and resuming leaves the fusion mode and the pose latch as they were |
| EngineSessions.ImageSizeNeverChanges | InfiniTAM/ITMLib/Engine/ITMMainEngine.cpp:292-295 | the reported image size is the live raycast size fixed at construction: processing frames, runs, image requests and the mode toggles leave it unchanged |
| EngineSessions.RenderTypeOfInjective | InfiniTAM/ITMLib/Engine/ITMMainEngine.cpp:334-340 | distinct free-camera kinds select distinct render modes |
| FileNames.LastIndexOf | InfiniTAM/ITMLib/Engine/ITMMainEngine.cpp:143-144 | the result is the index of the last occurrence of the character, or -1 exactly when it does not occur |
| FileNames.FindLast | InfiniTAM/Engine/ImageSourceEngine.cpp:70-71 | the source's backward scan stops at the last occurrence, or at -1 |
| FileNames.PoseFileName | InfiniTAM/ITMLib/Engine/ITMMainEngine.cpp:143-169 | with i the last '.' (or -1), the pose name equals the depth name except that positions i+1..i+3 read "txt". Its length is the larger of the depth name's length and i+4 |
| FileNames.PoseFileNameInBuffer | InfiniTAM/ITMLib/Engine/ITMMainEngine.cpp:142-170 | zeroing the 100-byte buffer, copying the name, writing 't','x','t' and reading the C string back gives exactly the pose name |
| FileNames.PoseFileNameReplacesExtension | InfiniTAM/ITMLib/Engine/ITMMainEngine.cpp:167-169 | "stem.ext" with a three-letter extension gets the pose file "stem.txt" |
| FileNames.PoseFileNameWithoutDot | InfiniTAM/ITMLib/Engine/ITMMainEngine.cpp:143-169 | a name without '.' has its first three characters replaced by "txt" |
| FileNames.PoseFileNameIdempotent | InfiniTAM/ITMLib/Engine/ITMMainEngine.cpp:143-169 | deriving the pose name of a pose name changes nothing |
| FileNames.Basename | InfiniTAM/Engine/ImageSourceEngine.cpp:104-112 | the basename is the longest suffix of the path without '/': the text after the last '/', or the whole path |
| FileNames.BasenameAfterSlash | InfiniTAM/Engine/ImageSourceEngine.cpp:68-76 | the basename of "dir/name" is "name" when name holds no '/' |
| FileNames.OverwriteExtension | InfiniTAM/Engine/ImageSourceEngine.cpp:77-80 | overwriting the last three characters keeps the name's length, ends it in the given extension, and leaves everything before those three characters as it was |
| FileNames.ImageName | InfiniTAM/Engine/ImageSourceEngine.cpp:68-80 | appending INPUT_DIR and the basename to a buffer holding prior and overwriting the last three characters gives a name of length prior + INPUT_DIR + basename that ends in the extension and agrees with prior + INPUT_DIR + basename before it |
| FileNames.PngName | InfiniTAM/Engine/ImageSourceEngine.cpp:64-80 | the colour file name is INPUT_DIR and the basename of the formatted mask with its last three characters replaced by "png" |
| FileNames.PgmName | InfiniTAM/Engine/ImageSourceEngine.cpp:100-116 | the depth file name is INPUT_DIR and the basename of the formatted mask with its last three characters replaced by "pgm" |
| FileNames.ImageNameFromEmptyBuffer | InfiniTAM/Engine/ImageSourceEngine.cpp:196-205 | appended to an empty caller buffer, the name my_getImages builds is INPUT_DIR and the basename with the extension overwritten |
| FileNames.EmptyBufferNamesAreLoaderNames | InfiniTAM/Engine/ImageSourceEngine.cpp:196-205 | into an empty buffer, the name built with "png" is PngName and the one built with "pgm" is PgmName: the very names the loader opened |
| FileNames.ImageNameReplacesExtension | InfiniTAM/Engine/ImageSourceEngine.cpp:104-116 | "dir/stem.ext" yields prior + INPUT_DIR + "stem." + the new extension |
| FileNames.OverwriteExtensionKeepsNameIff | InfiniTAM/Engine/ImageSourceEngine.cpp:113-116 | overwriting the extension leaves a name unchanged iff it already ended in that extension |
| Frames.ReadInto | InfiniTAM/Engine/ImageSourceEngine.cpp:264-273 | a direct read fills the caller's buffer with the file on success and leaves it as it was on failure |
| ImageFileReader.Create | InfiniTAM/Engine/ImageSourceEngine.cpp:16-28 | a new reader keeps its masks and INPUT_DIR, is at frame 0, has cached frame number -1 and all three cache slots empty |
| ImageFileReader.LoadIntoCache | InfiniTAM/Engine/ImageSourceEngine.cpp:52-125 | a cached current frame is left alone. Otherwise the current frame becomes the cached one; the colour slot holds the PNG file iff its read succeeded; the 16-bit depth slot holds a blank image; the float depth slot holds the PGM file iff its read succeeded |
| ImageFileReader.HasMoreImages | InfiniTAM/Engine/ImageSourceEngine.cpp:172-176 | after loading, the answer is true iff all three slots hold an image. For a frame that had to be loaded, that is iff both reads succeeded |
| ImageFileReader.GetImages | InfiniTAM/Engine/ImageSourceEngine.cpp:247-276 | cached colour and 16-bit depth images are delivered and their slots emptied. A buffer whose slot was empty keeps its content when the other slot was used. With both slots empty, both buffers are read directly. The frame number goes up by exactly one |
| ImageFileReader.MyGetImages | InfiniTAM/Engine/ImageSourceEngine.cpp:180-245 | as getImages with the float depth slot, leaving the 16-bit slot alone. The caller's colour name buffer gets INPUT_DIR, the basename and the "png" overwrite appended. The depth name buffer gets INPUT_DIR followed by the basename |
| ImageFileReader.ProtocolInvariant | InfiniTAM/Engine/ImageSourceEngine.cpp:22-276 | the cached frame number never runs ahead of the current one: the constructor establishes this, loading and probing keep it, and after getImages or my_getImages it still holds and the current frame is uncached, so the next probe loads |
| ImageFileReader.LoadIntoCacheIdempotent | InfiniTAM/Engine/ImageSourceEngine.cpp:54-55 | loading twice equals loading once, whatever the second load's reads would give |
| ImageFileReader.FirstProbeLoadsFrameZero | InfiniTAM/Engine/ImageSourceEngine.cpp:22-23 | the first probe of a new reader always loads, and loads frame 0 |
| ImageFileReader.ProbeThenMyGetImages | InfiniTAM/Engine/ImageSourceEngine.cpp:172-245 | a successful probe followed by my_getImages delivers exactly the loaded PNG and PGM files and reports the PNG name. It empties both slots and moves to an uncached frame |
| ImageFileReader.ReportedDepthNameIsLoadedFile | InfiniTAM/Engine/ImageSourceEngine.cpp:100-227 | the depth name my_getImages reports equals the PGM file the loader read iff INPUT_DIR followed by the basename of the formatted depth path already ends in "pgm" |
| ImageFileReader.ProbeThenGetImages | InfiniTAM/Engine/ImageSourceEngine.cpp:247-262 | a successful probe followed by getImages delivers the loaded colour file and a blank 16-bit depth image. The float depth image stays cached |
| RawFileReader.Create | InfiniTAM/Engine/ImageSourceEngine.cpp:310-325 | a new reader, for any image size, keeps its masks and size, is at frame 0, has cached frame number -1 and both cache slots empty |
| RawFileReader.LoadIntoCache | InfiniTAM/Engine/ImageSourceEngine.cpp:336-377 | a cached current frame is left alone. Otherwise the current frame becomes the cached one, and each slot holds its file iff the file opened and fread returned exactly width × height elements |
| RawFileReader.HasMoreImages | InfiniTAM/Engine/ImageSourceEngine.cpp:380-385 | after loading, the answer is true iff at least one slot holds an image |
| RawFileReader.GetImages | InfiniTAM/Engine/ImageSourceEngine.cpp:387-410 | cached images are delivered and their slots emptied. With both slots empty, the current frame is loaded into the cache before the frame number advances, and the buffers keep their contents. The frame number always goes up by one |
| RawFileReader.ProtocolInvariant | InfiniTAM/Engine/ImageSourceEngine.cpp:320-410 | the cached frame number never runs ahead of the current one: the constructor establishes this, loading and probing keep it, and after getImages it still holds and the current frame is uncached |
| RawFileReader.LoadIntoCacheIdempotent | InfiniTAM/Engine/ImageSourceEngine.cpp:338-339 | loading twice equals loading once |
| RawFileReader.ProbeThenGetImages | InfiniTAM/Engine/ImageSourceEngine.cpp:380-410 | a successful probe followed by getImages delivers the two loaded files, empties the cache and moves to an uncached frame |
| RawFileReader.GetImagesWithoutProbeSkipsAFrame | InfiniTAM/Engine/ImageSourceEngine.cpp:407-409 | without probes, getImages lags one frame: it loads frame n, delivers it on the next call, and frame n+1 is never opened |

## Left out

- Voxel hashing, swapping, fusion, raycasting, rendering and tracking are implemented in files
  that are not part of this model. They appear only as trace events or picture contents.
- The pose arithmetic (transpose, negated translation, matrix products, `Coerce`, lines 202-271)
  is float matrix numerics. Poses are symbolic values instead.
- `ProcessFrame` reads the pose file with `fopen`/`fscanf` and does not check for a missing
  file. The model takes the file's pose as `PoseOf(file)` and does not model the crash.
- The initial values of `use_our_state`, `first_pose` and `last_pose` are not set in the
  constructor. They are modelled as unset, identity and identity.
- `UpdateMesh` and `SaveSceneToMesh` are left out: mesh extraction and STL writing.
- The destructors are left out: memory release only.
- Device dispatch (CPU/CUDA/Metal) and the host/device copies inside `GetImage` are left out.
  They do not change which image is delivered.
- `GetTrackedImageSize`, `CreateRenderState` and the view builder are only called here; the
  tracked size is a parameter.
- Logging (`printf`, `puts`, `cout`) is left out. The IMU branch of `ProcessFrame` only logs,
  so it is modelled as building no view.
- `sprintf` formatting of masks is a parameter.
- The `strncpy` truncation of masks to `BUF_SIZE` is left out: the constant is defined in a
  header that is not part of this model.
- `ImageFileReader::getDepthImageSize` and `getRGBImageSize` are left out. They report image
  dimensions, which the abstract images do not carry.
- `CalibSource`, `ResizeIntrinsics`, `readRGBDCalib` and `my_convertDisparityToDepth` are
  calibration and float numerics.
- Heap leaks from repeated `new` in `loadIntoCache` and per frame in `ProcessFrame` are not
  modelled.
- Frames.ReadInto: `ReadImageFromFile` is not part of this model. A failed read is assumed to
  leave the caller's buffer unchanged.
- MainEngine.GetImage: the free-camera branch copies the free-view render into the output
  without resizing it. The output is modelled as keeping its size, because `SetFrom`'s
  resizing behaviour is defined outside this model.
- ImageFileReader.GetImages: frame numbers are unbounded integers. The 32-bit `int`
  wrap-around of `currentFrameNo` after 2³¹ frames is not modelled; the same holds for
  RawFileReader.GetImages and MyGetImages.
- RawFileReader.LoadIntoCache: image sizes are required to be non-negative with an `int`
  pixel count. Under that requirement the `size_t` comparison equals width × height; the
  wrap-around for negative or overflowing sizes is not modelled.
- MainEngine.GetImage: the camera intrinsics passed to the free-view visibility, expected
  depth and rendering calls are not modelled; a free render records only its render mode and
  pose, as the intrinsics only feed rendering numerics that are not part of this model.
- MainEngine.ProcessFrame: the view builder `float_UpdateView` is not part of this model. A
  built view is assumed to carry the frame's colour and depth sizes.
- The fixed buffers are kept only as preconditions: `pose_file_name[100]`, `str[2048]`, and
  the 2048-byte name buffers.
- FileNames.ExtensionWritable: image names shorter than three characters are excluded. On
  them the extension overwrite writes before the start of the buffer, which is undefined
  behaviour; OverwriteExtension, ImageName, PngName, PgmName and MyGetImages require it.

=== FILE: engine_sessions.dfy ===
/**
 Properties of the engine over several calls: a run of frames, a series of
 image requests, and the mode toggles between them.
 */
module EngineSessions {
  import opened Wrappers
  import FileNames
  import opened MainEngine

  /** Every frame's depth name is a C string whose pose-file name fits, when
      main processing is on. */
  predicate CanRun(e: Engine, frames: seq<Frame>) {
    e.mainProcessingActive ==>
      forall i :: 0 <= i < |frames| ==>
        FileNames.IsCString(frames[i].depthName) && FileNames.PoseNameFits(frames[i].depthName)
  }

  /** Feed the frames to `ProcessFrame` one after the other, concatenating
      their traces. No frame changes the modes or the render states. */
  function Run(e: Engine, frames: seq<Frame>): (s: Step)
    requires CanRun(e, frames)
    ensures SameControl(e, s.engine)
    decreases |frames|
  {
    if |frames| == 0 then Step(e, [])
    else
      var first := ProcessFrame(e, frames[0]);
      var rest := Run(first.engine, frames[1..]);
      Step(rest.engine, first.trace + rest.trace)
  }

  /** With integration off, no frame of a run is fused. */
  lemma {:induction false} IntegrationOffNeverFuses(e: Engine, frames: seq<Frame>)
    requires CanRun(e, frames) && !e.fusionActive
    ensures Fuse !in Run(e, frames).trace
    decreases |frames|
  {
    if |frames| > 0 {
      var first := ProcessFrame(e, frames[0]);
      IntegrationOffNeverFuses(first.engine, frames[1..]);
    }
  }

  /** With main processing off, a run only rebuilds views: one per frame that
      came without an IMU measurement, in frame order, and the pose latch is
      left as it was. */
  lemma {:induction false} MainProcessingOffOnlyBuildsViews(e: Engine, frames: seq<Frame>)
    requires !e.mainProcessingActive
    ensures var s := Run(e, frames);
      && s.trace == ViewsOf(frames)
      && s.engine.useOurState == e.useOurState
      && s.engine.firstPose == e.firstPose && s.engine.lastPose == e.lastPose
    decreases |frames|
  {
    if |frames| > 0 {
      var first := ProcessFrame(e, frames[0]);
      MainProcessingOffOnlyBuildsViews(first.engine, frames[1..]);
    }
  }

  /** The view-building events of a series of frames. */
  function ViewsOf(frames: seq<Frame>): (views: seq<Event>) {
    if |frames| == 0 then []
    else (if frames[0].imu then [] else [BuildView(frames[0].depthName)]) + ViewsOf(frames[1..])
  }

  /** Once latched, the first pose never changes again and the latch stays set. */
  lemma {:induction false} LatchedPoseStays(e: Engine, frames: seq<Frame>)
    requires CanRun(e, frames) && e.useOurState
    ensures Run(e, frames).engine.useOurState && Run(e, frames).engine.firstPose == e.firstPose
    decreases |frames|
  {
    if |frames| > 0 {
      var first := ProcessFrame(e, frames[0]);
      LatchedPoseStays(first.engine, frames[1..]);
    }
  }

  /** From an unlatched engine with main processing on, the first frame's pose
      becomes `firstPose` for the rest of the run. */
  lemma {:induction false} FirstPoseLatchedOnce(e: Engine, frames: seq<Frame>)
    requires CanRun(e, frames) && e.mainProcessingActive && !e.useOurState && |frames| > 0
    ensures Run(e, frames).engine.useOurState
    ensures Run(e, frames).engine.firstPose == FilePose(frames[0].depthName)
  {
    var first := ProcessFrame(e, frames[0]);
    CanRunTail(e, frames);
    var tail := frames[1..];
    assert Run(e, frames).engine == Run(first.engine, tail).engine;
    LatchedPoseStays(first.engine, tail);
  }

  /** From an unlatched engine with main processing on, after two or more frames
      `lastPose` is the last frame's pose relative to the first frame's pose. */
  lemma {:induction false} LastPoseRelativeToFirstFrame(e: Engine, frames: seq<Frame>)
    requires CanRun(e, frames) && e.mainProcessingActive && !e.useOurState && |frames| >= 2
    ensures Run(e, frames).engine.lastPose ==
            Relative(FilePose(frames[|frames| - 1].depthName), FilePose(frames[0].depthName))
  {
    var first := ProcessFrame(e, frames[0]);
    CanRunTail(e, frames);
    var tail := frames[1..];
    assert Run(e, frames).engine == Run(first.engine, tail).engine;
    LastPoseFollowsLatestFrame(first.engine, tail);
    assert tail[|tail| - 1] == frames[|frames| - 1];
  }

  /** The rest of a run after its first frame can run on the engine that frame left. */
  lemma CanRunTail(e: Engine, frames: seq<Frame>)
    requires CanRun(e, frames) && |frames| > 0
    ensures CanRun(ProcessFrame(e, frames[0]).engine, frames[1..])
  {
    forall i | 0 <= i < |frames[1..]|
      ensures frames[1..][i] == frames[i + 1]
    {
    }
  }

  /** On a latched engine with main processing on, `lastPose` ends as the last
      frame's pose relative to the latched first pose. */
  lemma {:induction false} LastPoseFollowsLatestFrame(e: Engine, frames: seq<Frame>)
    requires CanRun(e, frames) && e.mainProcessingActive && e.useOurState && |frames| > 0
    ensures Run(e, frames).engine.lastPose == Relative(FilePose(frames[|frames| - 1].depthName), e.firstPose)
    decreases |frames|
  {
    var first := ProcessFrame(e, frames[0]);
    if |frames| > 1 {
      LastPoseFollowsLatestFrame(first.engine, frames[1..]);
      assert frames[1..][|frames[1..]| - 1] == frames[|frames| - 1];
    }
  }

  // ---------------------------------------------------------------------------
  // Image requests

  datatype Request = Request(out: Picture, kind: ImageKind, pose: Pose)

  /** Serve the requests one after the other, keeping the engine between them. */
  function ServeAll(e: Engine, requests: seq<Request>): (r: Engine)
    decreases |requests|
  {
    if |requests| == 0 then e
    else ServeAll(GetImage(e, requests[0].out, requests[0].kind, requests[0].pose).engine, requests[1..])
  }

  /** Index of the first free-camera request, or |requests| when there is none. */
  function FirstFreeCamera(requests: seq<Request>): (i: nat)
    ensures i <= |requests|
    ensures i < |requests| ==> IsFreeCamera(requests[i].kind)
    ensures forall j :: 0 <= j < i ==> !IsFreeCamera(requests[j].kind)
  {
    if |requests| == 0 then 0
    else if IsFreeCamera(requests[0].kind) then 0
    else 1 + FirstFreeCamera(requests[1..])
  }

  /** The free-view render state is created at most once: an existing one is
      kept by every request; without one, a view present, the first free-camera
      request creates it with its output's size, and nothing else ever does. */
  lemma {:induction false} FreeviewCreatedAtMostOnce(e: Engine, requests: seq<Request>)
    requires e.view.Some?
    ensures var r := ServeAll(e, requests);
      && r == e.(freeview := r.freeview)
      && (e.freeview.Some? ==> r.freeview == e.freeview)
      && (e.freeview.None? ==>
            var i := FirstFreeCamera(requests);
            if i < |requests| then r.freeview == Some(RenderState(requests[i].out.size))
            else r.freeview.None?)
    decreases |requests|
  {
    if |requests| > 0 {
      var q := requests[0];
      var next := GetImage(e, q.out, q.kind, q.pose).engine;
      FreeviewCreatedAtMostOnce(next, requests[1..]);
    }
  }

  /** Before the first frame no request changes the engine. */
  lemma {:induction false} NoViewNoChange(e: Engine, requests: seq<Request>)
    requires e.view.None?
    ensures ServeAll(e, requests) == e
    decreases |requests|
  {
    if |requests| > 0 {
      NoViewNoChange(e, requests[1..]);
    }
  }

  // ---------------------------------------------------------------------------
  // Mode toggles

  /** The last toggle of a flag decides it, toggles of different flags commute,
      and each toggle is idempotent. */
  lemma ToggleLaws(e: Engine)
    ensures TurnOffIntegration(TurnOnIntegration(e)) == TurnOffIntegration(e)
    ensures TurnOnIntegration(TurnOffIntegration(e)) == TurnOnIntegration(e)
    ensures TurnOffMainProcessing(TurnOnMainProcessing(e)) == TurnOffMainProcessing(e)
    ensures TurnOnMainProcessing(TurnOffMainProcessing(e)) == TurnOnMainProcessing(e)
    ensures TurnOffIntegration(TurnOffMainProcessing(e)) == TurnOffMainProcessing(TurnOffIntegration(e))
    ensures TurnOffIntegration(TurnOnMainProcessing(e)) == TurnOnMainProcessing(TurnOffIntegration(e))
    ensures TurnOnIntegration(TurnOffMainProcessing(e)) == TurnOffMainProcessing(TurnOnIntegration(e))
    ensures TurnOnIntegration(TurnOnMainProcessing(e)) == TurnOnMainProcessing(TurnOnIntegration(e))
    ensures TurnOnIntegration(TurnOnIntegration(e)) == TurnOnIntegration(e)
    ensures TurnOffIntegration(TurnOffIntegration(e)) == TurnOffIntegration(e)
    ensures TurnOnMainProcessing(TurnOnMainProcessing(e)) == TurnOnMainProcessing(e)
    ensures TurnOffMainProcessing(TurnOffMainProcessing(e)) == TurnOffMainProcessing(e)
  {
  }

  /** Turning main processing off and back on around a paused stretch leaves the
      modes and the pose latch as they were; only the view moves on. */
  lemma {:induction false} PauseKeepsLatch(e: Engine, paused: seq<Frame>)
    ensures var s := Run(TurnOffMainProcessing(e), paused);
      var resumed := TurnOnMainProcessing(s.engine);
      && resumed.fusionActive == e.fusionActive
      && resumed.useOurState == e.useOurState
      && resumed.firstPose == e.firstPose && resumed.lastPose == e.lastPose
      && resumed.mainProcessingActive
  {
    MainProcessingOffOnlyBuildsViews(TurnOffMainProcessing(e), paused);
  }

  /** A frame processed with integration switched off still tracks and
      prepares the raycast, but is not fused. */
  lemma FrameWithIntegrationOff(e: Engine, f: Frame)
    requires CanProcess(e, f) && e.mainProcessingActive
    ensures var t := ProcessFrame(TurnOffIntegration(e), f).trace;
      Track in t && PrepareRaycast in t && Fuse !in t
  {
  }

  /** `GetImageSize` reports the live raycast size fixed at construction: no
      frame, run, image request or mode toggle changes it. */
  lemma ImageSizeNeverChanges(e: Engine, f: Frame, frames: seq<Frame>, out: Picture, kind: ImageKind, pose: Pose)
    ensures CanProcess(e, f) ==> GetImageSize(ProcessFrame(e, f).engine) == GetImageSize(e)
    ensures CanRun(e, frames) ==> GetImageSize(Run(e, frames).engine) == GetImageSize(e)
    ensures GetImageSize(GetImage(e, out, kind, pose).engine) == GetImageSize(e)
    ensures GetImageSize(TurnOnIntegration(e)) == GetImageSize(e)
    ensures GetImageSize(TurnOffIntegration(e)) == GetImageSize(e)
    ensures GetImageSize(TurnOnMainProcessing(e)) == GetImageSize(e)
    ensures GetImageSize(TurnOffMainProcessing(e)) == GetImageSize(e)
  {
  }

  /** The three free-camera kinds map to the three render modes one to one. */
  lemma RenderTypeOfInjective(a: ImageKind, b: ImageKind)
    requires IsFreeCamera(a) && IsFreeCamera(b) && a != b
    ensures RenderTypeOf(a) != RenderTypeOf(b)
  {
  }
}

=== FILE: file_names.dfy ===
/**
 Derived file names of the orchestration glue: the pose file that sits next to a
 depth image, and the PNG/PGM image names that the image reader builds from a
 formatted mask and the INPUT_DIR prefix. Strings are C strings, so `'\0'` never
 occurs inside one; the fixed `char[]` buffers of the source become preconditions.
 */
module FileNames {

  /** Size of the `pose_file_name` buffer in ITMMainEngine::ProcessFrame. */
  const PoseBufferSize: nat := 100

  /** Size of the `str`, `img_file_name` and `depth_file_name` buffers of the readers. */
  const PathBufferSize: nat := 2048

  function Max(a: int, b: int): (m: int) { if a < b then b else a }

  /** A C string: no NUL character inside. */
  predicate IsCString(s: string) { '\0' !in s }

  /** Index of the last `c` in `s`, or -1 when there is none: the value at which
      the source's backward scan `for (i = strlen(s)-1; i >= 0; i--)` stops. */
  function LastIndexOf(s: string, c: char): (i: int)
    ensures -1 <= i < |s|
    ensures 0 <= i ==> s[i] == c
    ensures forall j :: i < j < |s| ==> s[j] != c
    ensures i == -1 <==> c !in s
  {
    if |s| == 0 then -1
    else if s[|s| - 1] == c then |s| - 1
    else LastIndexOf(s[..|s| - 1], c)
  }

  /** The backward scan itself, as the source writes it. */
  method FindLast(s: string, c: char) returns (i: int)
    ensures i == LastIndexOf(s, c)
  {
    i := |s| - 1;
    while i >= 0 && s[i] != c
      invariant -1 <= i < |s|
      invariant forall j :: i < j < |s| ==> s[j] != c
      decreases i + 1
    {
      i := i - 1;
    }
  }

  /** The characters of a buffer before its first NUL (what `strlen`/`printf`
      see); the whole buffer when it holds no NUL. */
  function CString(buf: string): (s: string)
    ensures IsCString(s)
    ensures |s| <= |buf| && s == buf[..|s|]
    ensures |s| < |buf| ==> buf[|s|] == '\0'
  {
    if |buf| == 0 || buf[0] == '\0' then ""
    else [buf[0]] + CString(buf[1..])
  }

  // ---------------------------------------------------------------------------
  // Pose file name (ITMMainEngine::ProcessFrame)

  /** The pose file of a depth image: the three characters after the last '.'
      become "txt"; without a '.', the scan ends at -1 and the first three
      characters are overwritten. A name that ends before those three positions
      grows to hold them. */
  function PoseFileName(depthName: string): (r: string)
    ensures var i := LastIndexOf(depthName, '.');
      && |r| == Max(|depthName|, i + 4)
      && forall k :: 0 <= k < |r| ==>
           r[k] == if i + 1 <= k < i + 4 then "txt"[k - i - 1] else depthName[k]
  {
    var i := LastIndexOf(depthName, '.');
    depthName[..i + 1] + "txt" + (if i + 4 <= |depthName| then depthName[i + 4..] else "")
  }

  /** The `strcpy` into `pose_file_name[100]` and the three writes stay inside the buffer
      and leave a NUL after the name. */
  predicate PoseNameFits(depthName: string) {
    |depthName| < PoseBufferSize && LastIndexOf(depthName, '.') + 4 < PoseBufferSize
  }

  /** The source's buffer manipulation step by step: zero the buffer, copy the
      depth name, write 't','x','t' at i+1..i+3, read back the C string. */
  method PoseFileNameInBuffer(depthName: string) returns (poseName: string)
    requires IsCString(depthName)
    requires PoseNameFits(depthName)
    ensures poseName == PoseFileName(depthName)
  {
    var i := FindLast(depthName, '.');
    var buf := seq(PoseBufferSize, _ => '\0');
    var k := 0;
    while k < |depthName|
      invariant 0 <= k <= |depthName|
      invariant |buf| == PoseBufferSize
      invariant forall j :: 0 <= j < k ==> buf[j] == depthName[j]
      invariant forall j :: k <= j < PoseBufferSize ==> buf[j] == '\0'
    {
      buf := buf[k := depthName[k]];
      k := k + 1;
    }
    var written := buf[i + 1 := 't'][i + 2 := 'x'][i + 3 := 't'];
    var expected := PoseFileName(depthName);
    PoseFileNameIsCString(depthName);
    WrittenBufferHoldsPoseName(depthName, buf, written);
    poseName := CString(written);
    CStringOfTerminated(written, expected);
  }

  /** The pose name of a C string is again a C string. */
  lemma PoseFileNameIsCString(depthName: string)
    requires IsCString(depthName)
    ensures IsCString(PoseFileName(depthName))
  {
    var i := LastIndexOf(depthName, '.');
    var r := PoseFileName(depthName);
    forall j | 0 <= j < |r|
      ensures r[j] != '\0'
    {
      if j <= i || i + 4 <= j {
        assert depthName[j] in depthName;
      }
    }
  }

  /** After the copy and the three writes, the buffer starts with the pose name
      and has a NUL right after it. */
  lemma WrittenBufferHoldsPoseName(depthName: string, copied: string, written: string)
    requires PoseNameFits(depthName)
    requires |copied| == PoseBufferSize
    requires forall j :: 0 <= j < |depthName| ==> copied[j] == depthName[j]
    requires forall j :: |depthName| <= j < PoseBufferSize ==> copied[j] == '\0'
    requires var i := LastIndexOf(depthName, '.');
      written == copied[i + 1 := 't'][i + 2 := 'x'][i + 3 := 't']
    ensures var r := PoseFileName(depthName);
      |r| < |written| && written[..|r|] == r && written[|r|] == '\0'
  {
    var i := LastIndexOf(depthName, '.');
    var r := PoseFileName(depthName);
    forall j | 0 <= j < |r|
      ensures written[j] == r[j]
    {
      if i + 1 <= j < i + 4 {
        assert r[j] == "txt"[j - i - 1];
      } else {
        assert r[j] == depthName[j];
        assert written[j] == copied[j];
      }
    }
    assert written[|r|] == '\0' by {
      if |r| == i + 4 {
        assert written[i + 4] == copied[i + 4];
      } else {
        assert written[|depthName|] == copied[|depthName|];
      }
    }
  }

  /** A buffer holding a NUL-free prefix followed by a NUL reads back as that prefix. */
  lemma CStringOfTerminated(buf: string, s: string)
    requires IsCString(s) && |s| < |buf| && buf[..|s|] == s && buf[|s|] == '\0'
    ensures CString(buf) == s
  {
  }

  // ---------------------------------------------------------------------------
  // Image file names (ImageFileReader::loadIntoCache and ::my_getImages)

  /** What follows the last '/' of a path (the whole path when there is none):
      the longest suffix without a '/'. */
  function Basename(path: string): (b: string)
    ensures '/' !in b
    ensures |b| <= |path| && path[|path| - |b|..] == b
    ensures |b| < |path| ==> path[|path| - |b| - 1] == '/'
  {
    path[LastIndexOf(path, '/') + 1..]
  }

  /** `strcat(name, INPUT_DIR); strcat(name, str + i)` onto a buffer holding `prior`. */
  function InputName(prior: string, inputDir: string, path: string): (name: string) {
    prior + inputDir + Basename(path)
  }

  /** The writes at `strlen - 1 .. strlen - 3` stay inside the name. */
  predicate ExtensionWritable(prior: string, inputDir: string, path: string) {
    3 <= |prior| + |inputDir| + |Basename(path)|
  }

  /** The formatted path and the derived name fit the reader's 2048-byte buffers. */
  predicate NameFits(inputDir: string, path: string) {
    && |path| < PathBufferSize
    && ExtensionWritable("", inputDir, path)
    && |inputDir| + |Basename(path)| < PathBufferSize
  }

  /** The writes `name[i-1]`, `name[i-2]`, `name[i-3]` with `i = strlen(name)`:
      the last three characters become `ext`. */
  function OverwriteExtension(name: string, ext: string): (r: string)
    requires |ext| == 3 <= |name|
    ensures |r| == |name|
    ensures r[|r| - 3..] == ext
    ensures r[..|r| - 3] == name[..|name| - 3]
  {
    var r := name[..|name| - 3] + ext;
    assert r[|r| - 3..] == ext;
    r
  }

  /** The image name of a formatted path: `prior`, INPUT_DIR and the basename,
      with the last three characters overwritten by `ext`. */
  function ImageName(prior: string, inputDir: string, path: string, ext: string): (r: string)
    requires |ext| == 3 && ExtensionWritable(prior, inputDir, path)
    ensures |r| == |prior| + |inputDir| + |Basename(path)|
    ensures r[|r| - 3..] == ext
    ensures r[..|r| - 3] == (prior + inputDir + Basename(path))[..|r| - 3]
  {
    OverwriteExtension(InputName(prior, inputDir, path), ext)
  }

  /** The extensions the image reader writes over the last three characters. */
  const PngExtension: string := "png"
  const PgmExtension: string := "pgm"

  /** The PNG colour-image name the image reader opens for a formatted mask:
      INPUT_DIR and the basename, ending in "png". */
  function PngName(inputDir: string, path: string): (r: string)
    requires ExtensionWritable("", inputDir, path)
    ensures |r| == |inputDir| + |Basename(path)|
    ensures r[|r| - 3..] == PngExtension
    ensures r[..|r| - 3] == (inputDir + Basename(path))[..|r| - 3]
  {
    OverwriteExtension(inputDir + Basename(path), PngExtension)
  }

  /** The PGM depth-image name the image reader opens for a formatted mask:
      INPUT_DIR and the basename, ending in "pgm". */
  function PgmName(inputDir: string, path: string): (r: string)
    requires ExtensionWritable("", inputDir, path)
    ensures |r| == |inputDir| + |Basename(path)|
    ensures r[|r| - 3..] == PgmExtension
    ensures r[..|r| - 3] == (inputDir + Basename(path))[..|r| - 3]
  {
    OverwriteExtension(inputDir + Basename(path), PgmExtension)
  }

  /** Into an empty caller buffer, `my_getImages` builds exactly the name the
      loader opened: INPUT_DIR and the basename, extension overwritten. */
  lemma ImageNameFromEmptyBuffer(inputDir: string, path: string, ext: string)
    requires |ext| == 3 && ExtensionWritable("", inputDir, path)
    ensures InputName("", inputDir, path) == inputDir + Basename(path)
    ensures ImageName("", inputDir, path, ext) == OverwriteExtension(inputDir + Basename(path), ext)
  {
    assert "" + inputDir == inputDir;
  }

  /** Hence the colour and depth names `my_getImages` reports into empty
      buffers are exactly the PNG and PGM names the loader opened. */
  lemma EmptyBufferNamesAreLoaderNames(inputDir: string, path: string)
    requires ExtensionWritable("", inputDir, path)
    ensures ImageName("", inputDir, path, PngExtension) == PngName(inputDir, path)
    ensures ImageName("", inputDir, path, PgmExtension) == PgmName(inputDir, path)
  {
    ImageNameFromEmptyBuffer(inputDir, path, PngExtension);
    ImageNameFromEmptyBuffer(inputDir, path, PgmExtension);
  }

  // ---------------------------------------------------------------------------
  // What the derived names mean for the names the program is fed

  /** The intended case: a depth image "stem.ext" with a three-letter extension
      gets the pose file "stem.txt". */
  lemma PoseFileNameReplacesExtension(stem: string, ext: string)
    requires |ext| == 3 && '.' !in ext
    ensures PoseFileName(stem + "." + ext) == stem + ".txt"
  {
    var d := stem + "." + ext;
    assert LastIndexOf(d, '.') == |stem| by {
      assert d[|stem|] == '.';
      forall j | |stem| < j < |d|
        ensures d[j] != '.'
      {
        assert d[j] == ext[j - |stem| - 1];
      }
    }
    var r := PoseFileName(d);
    assert |r| == |stem| + 4;
    forall k | 0 <= k < |r|
      ensures r[k] == (stem + ".txt")[k]
    {
      if k < |stem| {
        assert r[k] == d[k];
      }
    }
  }

  /** A depth name without any '.' loses its first three characters to "txt". */
  lemma PoseFileNameWithoutDot(depthName: string)
    requires '.' !in depthName && 3 <= |depthName|
    ensures PoseFileName(depthName) == "txt" + depthName[3..]
  {
    var r := PoseFileName(depthName);
    assert LastIndexOf(depthName, '.') == -1;
    forall k | 0 <= k < |r|
      ensures r[k] == ("txt" + depthName[3..])[k]
    {
    }
  }

  /** Deriving the pose name twice changes nothing more: the last '.' stays where
      it was, and the three characters after it already read "txt". */
  lemma PoseFileNameIdempotent(depthName: string)
    ensures PoseFileName(PoseFileName(depthName)) == PoseFileName(depthName)
  {
    var i := LastIndexOf(depthName, '.');
    var r := PoseFileName(depthName);
    assert LastIndexOf(r, '.') == i by {
      forall j | i < j < |r|
        ensures r[j] != '.'
      {
        if i + 4 <= j {
          assert r[j] == depthName[j];
        }
      }
      if 0 <= i {
        assert r[i] == depthName[i];
      }
    }
    var rr := PoseFileName(r);
    assert |rr| == |r|;
    forall k | 0 <= k < |r|
      ensures rr[k] == r[k]
    {
    }
  }

  /** The basename of "dir/name" is "name" when "name" holds no '/'. */
  lemma BasenameAfterSlash(dir: string, name: string)
    requires '/' !in name
    ensures Basename(dir + "/" + name) == name
  {
    var p := dir + "/" + name;
    assert LastIndexOf(p, '/') == |dir| by {
      assert p[|dir|] == '/';
      forall j | |dir| < j < |p|
        ensures p[j] != '/'
      {
        assert p[j] == name[j - |dir| - 1];
      }
    }
    assert p[|dir| + 1..] == name;
  }

  /** The intended case of the image names: "dir/stem.ext" read as `prior`,
      INPUT_DIR, "stem." and the new three-letter extension. */
  lemma ImageNameReplacesExtension(prior: string, inputDir: string, dir: string,
                                   stem: string, oldExt: string, ext: string)
    requires |oldExt| == 3 && |ext| == 3 && '/' !in stem && '/' !in oldExt
    ensures var path := dir + "/" + stem + "." + oldExt;
      && ExtensionWritable(prior, inputDir, path)
      && ImageName(prior, inputDir, path, ext) == prior + inputDir + stem + "." + ext
  {
    var name := stem + "." + oldExt;
    assert '/' !in name by {
      forall j | 0 <= j < |name|
        ensures name[j] != '/'
      {
        if j < |stem| {
          assert name[j] == stem[j];
        } else if j > |stem| {
          assert name[j] == oldExt[j - |stem| - 1];
        }
      }
    }
    assert dir + "/" + stem + "." + oldExt == dir + "/" + name;
    BasenameAfterSlash(dir, name);
    var n := prior + inputDir + name;
    assert n[..|n| - 3] == prior + inputDir + stem + ".";
  }

  /** Overwriting the extension leaves a name as it was exactly when it
      already ended in that extension. */
  lemma OverwriteExtensionKeepsNameIff(name: string, ext: string)
    requires |ext| == 3 <= |name|
    ensures OverwriteExtension(name, ext) == name <==> name[|name| - 3..] == ext
  {
    var r := OverwriteExtension(name, ext);
    if name[|name| - 3..] == ext {
      assert name == name[..|name| - 3] + name[|name| - 3..];
    }
    if r == name {
      assert name[|name| - 3..] == r[|r| - 3..];
    }
  }
}

=== FILE: frames.dfy ===
/** What the frame readers hand around: images and formatted file paths. */
module Frames {

  /** An image held in a reader's cache slot or in a caller's output buffer.
      Pixel data are not modelled: an image is either allocated and never
      filled, or the contents of the file it was read from. */
  datatype Image = Blank | Loaded(file: string)

  /** `sprintf(str, mask, frameNo)`: the path a mask names for a frame number.
      The C library's formatting is a parameter of the model. */
  type Formatter = (string, int) -> string

  /** A read into a caller's buffer (`ReadImageFromFile`): on success the buffer
      holds the file, on failure it keeps what it held. */
  function ReadInto(out: Image, file: string, ok: bool): (r: Image)
    ensures ok ==> r == Loaded(file)
    ensures !ok ==> r == out
  {
    if ok then Loaded(file) else out
  }
}

=== FILE: image_file_reader.dfy ===
/**
 The PNG/PGM frame reader (`ImageFileReader`). It caches the frame numbered
 `currentFrameNo` in three nullable slots: the colour image, the 16-bit depth
 image `cached_depth`, and the float depth image `my_cached_depth`.
 Only the colour and float-depth images are read from disk; `cached_depth` is
 allocated on every load and never filled or released there, because the
 loader returns before its 16-bit depth read.
 */
module ImageFileReader {
  import opened Wrappers
  import opened Frames
  import opened FileNames

  datatype Reader = Reader(
    rgbMask: string,
    depthMask: string,
    inputDir: string,          // the INPUT_DIR prefix of the derived names
    currentFrameNo: int,
    cachedFrameNo: int,
    cachedRgb: Option<Image>,
    cachedDepth: Option<Image>,
    myCachedDepth: Option<Image>)

  /** Two readers that differ at most in frame numbers and cache slots. */
  predicate SameConfig(a: Reader, b: Reader) {
    a.rgbMask == b.rgbMask && a.depthMask == b.depthMask && a.inputDir == b.inputDir
  }

  function RgbPath(r: Reader, fmt: Formatter): string {
    fmt(r.rgbMask, r.currentFrameNo)
  }

  function DepthPath(r: Reader, fmt: Formatter): string {
    fmt(r.depthMask, r.currentFrameNo)
  }

  /** The buffers of the loader hold this frame's paths and derived names. */
  predicate LoadFits(r: Reader, fmt: Formatter) {
    NameFits(r.inputDir, RgbPath(r, fmt)) && NameFits(r.inputDir, DepthPath(r, fmt))
  }

  /** The `str[2048]` buffer of the direct reads holds this frame's paths. */
  predicate PathsFit(r: Reader, fmt: Formatter) {
    |RgbPath(r, fmt)| < PathBufferSize && |DepthPath(r, fmt)| < PathBufferSize
  }

  predicate NeedsLoad(r: Reader) {
    r.cachedFrameNo != r.currentFrameNo
  }

  /** The constructor: frame 0, nothing cached yet. */
  function Create(rgbMask: string, depthMask: string, inputDir: string): (r: Reader)
    ensures r.currentFrameNo == 0 && r.cachedFrameNo == -1
    ensures r.cachedRgb.None? && r.cachedDepth.None? && r.myCachedDepth.None?
    ensures r.rgbMask == rgbMask && r.depthMask == depthMask && r.inputDir == inputDir
  {
    Reader(rgbMask, depthMask, inputDir, 0, -1, None, None, None)
  }

  /** `loadIntoCache`. Nothing happens when the current frame is already cached.
      Otherwise the colour image is read from the PNG name and the float depth
      image from the PGM name, each slot left empty when its read fails;
      `cached_depth` is freshly allocated and stays allocated. */
  function LoadIntoCache(r: Reader, fmt: Formatter, rgbOk: bool, depthOk: bool): (r': Reader)
    requires NeedsLoad(r) ==> LoadFits(r, fmt)
    ensures !NeedsLoad(r) ==> r' == r
    ensures !NeedsLoad(r') && r'.currentFrameNo == r.currentFrameNo && SameConfig(r, r')
    ensures NeedsLoad(r) ==>
      && (r'.cachedRgb.Some? <==> rgbOk)
      && (rgbOk ==> r'.cachedRgb.value == Loaded(PngName(r.inputDir, RgbPath(r, fmt))))
      && r'.cachedDepth == Some(Blank)
      && (r'.myCachedDepth.Some? <==> depthOk)
      && (depthOk ==> r'.myCachedDepth.value == Loaded(PgmName(r.inputDir, DepthPath(r, fmt))))
  {
    if !NeedsLoad(r) then r
    else
      var rgbFile := PngName(r.inputDir, RgbPath(r, fmt));
      var depthFile := PgmName(r.inputDir, DepthPath(r, fmt));
      r.(cachedFrameNo := r.currentFrameNo,
         cachedRgb := if rgbOk then Some(Loaded(rgbFile)) else None,
         cachedDepth := Some(Blank),
         myCachedDepth := if depthOk then Some(Loaded(depthFile)) else None)
  }

  datatype Probe = Probe(reader: Reader, more: bool)

  /** `hasMoreImages`: load the current frame if needed, then report whether all
      three slots hold an image. */
  function HasMoreImages(r: Reader, fmt: Formatter, rgbOk: bool, depthOk: bool): (p: Probe)
    requires NeedsLoad(r) ==> LoadFits(r, fmt)
    ensures p.reader == LoadIntoCache(r, fmt, rgbOk, depthOk)
    ensures p.more <==>
      p.reader.cachedRgb.Some? && p.reader.cachedDepth.Some? && p.reader.myCachedDepth.Some?
    ensures NeedsLoad(r) ==> (p.more <==> rgbOk && depthOk)
  {
    var loaded := LoadIntoCache(r, fmt, rgbOk, depthOk);
    Probe(loaded, loaded.cachedRgb.Some? && loaded.cachedDepth.Some? && loaded.myCachedDepth.Some?)
  }

  datatype Delivery = Delivery(reader: Reader, rgb: Image, depth: Image)

  /** `getImages`: hand over the cached colour and 16-bit depth images, emptying
      their slots; when neither slot holds an image, read both directly from the
      formatted paths into the caller's buffers. The frame number always advances. */
  function GetImages(r: Reader, fmt: Formatter, rgb: Image, depth: Image, rgbOk: bool, depthOk: bool): (d: Delivery)
    requires r.cachedRgb.None? && r.cachedDepth.None? ==> PathsFit(r, fmt)
    ensures d.reader.currentFrameNo == r.currentFrameNo + 1
    ensures d.reader.cachedRgb.None? && d.reader.cachedDepth.None?
    ensures d.reader.cachedFrameNo == r.cachedFrameNo && d.reader.myCachedDepth == r.myCachedDepth
    ensures SameConfig(r, d.reader)
    ensures r.cachedRgb.Some? ==> d.rgb == r.cachedRgb.value
    ensures r.cachedDepth.Some? ==> d.depth == r.cachedDepth.value
    ensures r.cachedRgb.None? && r.cachedDepth.Some? ==> d.rgb == rgb
    ensures r.cachedRgb.Some? && r.cachedDepth.None? ==> d.depth == depth
    ensures r.cachedRgb.None? && r.cachedDepth.None? ==>
      d.rgb == ReadInto(rgb, RgbPath(r, fmt), rgbOk) && d.depth == ReadInto(depth, DepthPath(r, fmt), depthOk)
  {
    var usedCache := r.cachedRgb.Some? || r.cachedDepth.Some?;
    var rgb' := if r.cachedRgb.Some? then r.cachedRgb.value
                else if usedCache then rgb
                else ReadInto(rgb, RgbPath(r, fmt), rgbOk);
    var depth' := if r.cachedDepth.Some? then r.cachedDepth.value
                  else if usedCache then depth
                  else ReadInto(depth, DepthPath(r, fmt), depthOk);
    Delivery(r.(cachedRgb := None, cachedDepth := None, currentFrameNo := r.currentFrameNo + 1), rgb', depth')
  }

  datatype NamedDelivery = NamedDelivery(reader: Reader, rgb: Image, depth: Image, rgbName: string, depthName: string)

  /** What `my_getImages` needs: every path it formats fits `str[2048]`, and the
      colour name it builds is long enough for its extension to be overwritten. */
  predicate MyGetFits(r: Reader, fmt: Formatter, rgbName: string) {
    var direct := r.cachedRgb.None? && r.myCachedDepth.None?;
    && (r.cachedRgb.Some? || direct ==> |RgbPath(r, fmt)| < PathBufferSize)
    && (r.myCachedDepth.Some? || direct ==> |DepthPath(r, fmt)| < PathBufferSize)
    && (r.cachedRgb.Some? ==> ExtensionWritable(rgbName, r.inputDir, RgbPath(r, fmt)))
  }

  /** `my_getImages`: like `getImages` but with the float depth slot, and it
      appends the delivered images' names to the caller's name buffers: the
      colour name with its extension overwritten by "png", the depth name as
      INPUT_DIR and the basename of the formatted path. `cached_depth` is left
      alone. */
  function MyGetImages(r: Reader, fmt: Formatter, rgb: Image, depth: Image,
                       rgbName: string, depthName: string, rgbOk: bool, depthOk: bool): (d: NamedDelivery)
    requires MyGetFits(r, fmt, rgbName)
    ensures d.reader.currentFrameNo == r.currentFrameNo + 1
    ensures d.reader.cachedRgb.None? && d.reader.myCachedDepth.None?
    ensures d.reader.cachedFrameNo == r.cachedFrameNo && d.reader.cachedDepth == r.cachedDepth
    ensures SameConfig(r, d.reader)
    ensures r.cachedRgb.Some? ==>
      d.rgb == r.cachedRgb.value && d.rgbName == ImageName(rgbName, r.inputDir, RgbPath(r, fmt), PngExtension)
    ensures r.cachedRgb.None? ==> d.rgbName == rgbName
    ensures r.myCachedDepth.Some? ==>
      d.depth == r.myCachedDepth.value && d.depthName == InputName(depthName, r.inputDir, DepthPath(r, fmt))
    ensures r.myCachedDepth.None? ==> d.depthName == depthName
    ensures r.cachedRgb.None? && r.myCachedDepth.Some? ==> d.rgb == rgb
    ensures r.cachedRgb.Some? && r.myCachedDepth.None? ==> d.depth == depth
    ensures r.cachedRgb.None? && r.myCachedDepth.None? ==>
      d.rgb == ReadInto(rgb, RgbPath(r, fmt), rgbOk) && d.depth == ReadInto(depth, DepthPath(r, fmt), depthOk)
  {
    var usedCache := r.cachedRgb.Some? || r.myCachedDepth.Some?;
    var rgb' := if r.cachedRgb.Some? then r.cachedRgb.value
                else if usedCache then rgb
                else ReadInto(rgb, RgbPath(r, fmt), rgbOk);
    var rgbName' := if r.cachedRgb.Some? then ImageName(rgbName, r.inputDir, RgbPath(r, fmt), PngExtension) else rgbName;
    var depth' := if r.myCachedDepth.Some? then r.myCachedDepth.value
                  else if usedCache then depth
                  else ReadInto(depth, DepthPath(r, fmt), depthOk);
    var depthName' := if r.myCachedDepth.Some? then InputName(depthName, r.inputDir, DepthPath(r, fmt)) else depthName;
    NamedDelivery(r.(cachedRgb := None, myCachedDepth := None, currentFrameNo := r.currentFrameNo + 1),
                  rgb', depth', rgbName', depthName')
  }

  // ---------------------------------------------------------------------------
  // The cache protocol over several calls

  /** Loading is idempotent: once the current frame is cached, a second load
      neither reads again nor changes anything, whatever its reads would give. */
  lemma LoadIntoCacheIdempotent(r: Reader, fmt: Formatter, rgbOk: bool, depthOk: bool, rgbOk': bool, depthOk': bool)
    requires NeedsLoad(r) ==> LoadFits(r, fmt)
    ensures var once := LoadIntoCache(r, fmt, rgbOk, depthOk);
      LoadIntoCache(once, fmt, rgbOk', depthOk') == once
  {
  }

  /** A fresh reader always loads on its first probe, and loads frame 0. */
  lemma FirstProbeLoadsFrameZero(rgbMask: string, depthMask: string, inputDir: string,
                                 fmt: Formatter, rgbOk: bool, depthOk: bool)
    requires LoadFits(Create(rgbMask, depthMask, inputDir), fmt)
    ensures var p := HasMoreImages(Create(rgbMask, depthMask, inputDir), fmt, rgbOk, depthOk);
      && p.reader.cachedFrameNo == 0
      && (p.more <==> rgbOk && depthOk)
      && (rgbOk ==> p.reader.cachedRgb == Some(Loaded(PngName(inputDir, fmt(rgbMask, 0)))))
  {
  }

  /** One turn of the reading loop: a successful probe followed by `my_getImages`
      delivers exactly the two files the probe loaded, reports the colour file's
      name, empties both slots, and moves on to a frame that is not cached yet. */
  lemma ProbeThenMyGetImages(r: Reader, fmt: Formatter, rgb: Image, depth: Image, rgbOk: bool, depthOk: bool)
    requires NeedsLoad(r) && LoadFits(r, fmt)
    ensures var p := HasMoreImages(r, fmt, true, true);
      && p.more
      && MyGetFits(p.reader, fmt, "")
      && var d := MyGetImages(p.reader, fmt, rgb, depth, "", "", rgbOk, depthOk);
      && d.rgb == Loaded(PngName(r.inputDir, RgbPath(r, fmt)))
      && d.depth == Loaded(PgmName(r.inputDir, DepthPath(r, fmt)))
      && d.rgbName == PngName(r.inputDir, RgbPath(r, fmt))
      && d.reader.cachedRgb.None? && d.reader.myCachedDepth.None?
      && d.reader.currentFrameNo == r.currentFrameNo + 1
      && NeedsLoad(d.reader)
  {
    ImageNameFromEmptyBuffer(r.inputDir, RgbPath(r, fmt), PngExtension);
  }

  /** The depth name `my_getImages` reports is the file the loader actually read
      exactly when INPUT_DIR followed by the basename of the formatted depth
      path already ends in "pgm". */
  lemma ReportedDepthNameIsLoadedFile(r: Reader, fmt: Formatter)
    requires NeedsLoad(r) && LoadFits(r, fmt)
    ensures var loaded := LoadIntoCache(r, fmt, true, true);
      var n := InputName("", r.inputDir, DepthPath(r, fmt));
      (MyGetImages(loaded, fmt, Blank, Blank, "", "", true, true).depthName == PgmName(r.inputDir, DepthPath(r, fmt)))
        <==> n[|n| - 3..] == PgmExtension
  {
    ImageNameFromEmptyBuffer(r.inputDir, DepthPath(r, fmt), PgmExtension);
    OverwriteExtensionKeepsNameIff(r.inputDir + Basename(DepthPath(r, fmt)), PgmExtension);
  }

  /** A successful probe followed by `getImages` hands over the loaded colour
      image and the blank, never-read 16-bit depth image. */
  lemma ProbeThenGetImages(r: Reader, fmt: Formatter, rgb: Image, depth: Image, rgbOk: bool, depthOk: bool)
    requires NeedsLoad(r) && LoadFits(r, fmt)
    ensures var p := HasMoreImages(r, fmt, true, true);
      var d := GetImages(p.reader, fmt, rgb, depth, rgbOk, depthOk);
      && d.rgb == Loaded(PngName(r.inputDir, RgbPath(r, fmt)))
      && d.depth == Blank
      && d.reader.myCachedDepth.Some?
      && NeedsLoad(d.reader)
  {
  }

  /** The cache never runs ahead of the reader: the cached frame number is at
      most the current one. */
  predicate CacheNotAhead(r: Reader) {
    r.cachedFrameNo <= r.currentFrameNo
  }

  /** The constructor establishes `CacheNotAhead`, every operation keeps it, and
      after every `getImages` or `my_getImages` the next probe has to load a new
      frame. */
  lemma ProtocolInvariant(r: Reader, fmt: Formatter, rgb: Image, depth: Image,
                          rgbName: string, depthName: string, rgbOk: bool, depthOk: bool,
                          rgbMask: string, depthMask: string, inputDir: string)
    ensures CacheNotAhead(Create(rgbMask, depthMask, inputDir))
    ensures CacheNotAhead(r) && (NeedsLoad(r) ==> LoadFits(r, fmt)) ==>
      && CacheNotAhead(LoadIntoCache(r, fmt, rgbOk, depthOk))
      && CacheNotAhead(HasMoreImages(r, fmt, rgbOk, depthOk).reader)
    ensures CacheNotAhead(r) && (r.cachedRgb.None? && r.cachedDepth.None? ==> PathsFit(r, fmt)) ==>
      var d := GetImages(r, fmt, rgb, depth, rgbOk, depthOk);
      CacheNotAhead(d.reader) && NeedsLoad(d.reader)
    ensures CacheNotAhead(r) && MyGetFits(r, fmt, rgbName) ==>
      var d := MyGetImages(r, fmt, rgb, depth, rgbName, depthName, rgbOk, depthOk);
      CacheNotAhead(d.reader) && NeedsLoad(d.reader)
  {
  }
}

=== FILE: main_engine.dfy ===
/**
 The control layer of `ITMMainEngine`: the two mode flags, the per-frame stage
 sequence they gate, the one-shot "first pose" latch of the pose-file glue, and
 the dispatch of `GetImage`. The stages themselves (view building, tracking,
 fusion, raycasting, rendering) are opaque: a frame emits a trace of the stage
 calls it makes, and an output picture records which render it received.
 */
module MainEngine {
  import opened Wrappers
  import FileNames

  datatype Size = Size(x: int, y: int)

  /** A camera pose. The matrix arithmetic is not modelled: a pose is the one
      stored in a pose file, the identity, or `current` expressed relative to
      `reference` (the product `current · reference⁻¹`). */
  datatype Pose = Identity | PoseOf(file: string) | Relative(current: Pose, reference: Pose)

  /** The per-frame input bundle built by the view builder. */
  datatype View = View(rgbSize: Size, depthSize: Size)

  /** A render state; only its image size is modelled. */
  datatype RenderState = RenderState(size: Size)

  /** One incoming frame of `ProcessFrame`. */
  datatype Frame = Frame(rgbSize: Size, depthSize: Size, imu: bool, depthName: string)

  /** The stage calls of one frame. */
  datatype Event =
    | BuildView(depthName: string)   // viewBuilder->float_UpdateView
    | Track                          // trackingController->Track
    | ReadPose(poseFile: string)     // fopen/fscanf of the pose file
    | Fuse                           // denseMapper->ProcessFrame
    | PrepareRaycast                 // trackingController->Prepare

  datatype Engine = Engine(
    trackerIsWicp: bool,             // settings->trackerType == TRACKER_WICP
    live: RenderState,               // renderState_live
    freeview: Option<RenderState>,   // renderState_freeview, created on demand
    view: Option<View>,
    fusionActive: bool,
    mainProcessingActive: bool,
    useOurState: bool,               // set once the first pose has been latched
    firstPose: Pose,
    lastPose: Pose)

  /** Everything but the view and the pose latch: what a frame never changes. */
  predicate SameControl(a: Engine, b: Engine) {
    && a.trackerIsWicp == b.trackerIsWicp && a.live == b.live && a.freeview == b.freeview
    && a.fusionActive == b.fusionActive && a.mainProcessingActive == b.mainProcessingActive
  }

  // ---------------------------------------------------------------------------
  // Construction and mode toggles

  /** The depth image size given to the constructor, where -1 in either
      component means "same as the colour image". */
  function DepthSizeOrDefault(rgbSize: Size, depthSize: Size): (d: Size)
    ensures depthSize.x == -1 || depthSize.y == -1 ==> d == rgbSize
    ensures depthSize.x != -1 && depthSize.y != -1 ==> d == depthSize
  {
    if depthSize.x == -1 || depthSize.y == -1 then rgbSize else depthSize
  }

  /** The constructor. The tracked image size is chosen by the tracking
      controller from the colour and depth sizes (`trackedSize`); the live render
      state has that size. No view and no free-view render state exist yet, and
      both modes are on. */
  function Create(trackerIsWicp: bool, rgbSize: Size, depthSize: Size, trackedSize: (Size, Size) -> Size): (e: Engine)
    ensures e.fusionActive && e.mainProcessingActive
    ensures e.view.None? && e.freeview.None? && !e.useOurState
    ensures GetImageSize(e) == trackedSize(rgbSize, DepthSizeOrDefault(rgbSize, depthSize))
    ensures e.trackerIsWicp == trackerIsWicp
  {
    Engine(trackerIsWicp, RenderState(trackedSize(rgbSize, DepthSizeOrDefault(rgbSize, depthSize))),
           None, None, true, true, false, Identity, Identity)
  }

  /** `GetImageSize`: the size of the live raycast image. */
  function GetImageSize(e: Engine): (s: Size) {
    e.live.size
  }

  function TurnOnIntegration(e: Engine): (r: Engine)
    ensures r.fusionActive && r.mainProcessingActive == e.mainProcessingActive
    ensures r.(fusionActive := e.fusionActive) == e
  {
    e.(fusionActive := true)
  }

  function TurnOffIntegration(e: Engine): (r: Engine)
    ensures !r.fusionActive && r.mainProcessingActive == e.mainProcessingActive
    ensures r.(fusionActive := e.fusionActive) == e
  {
    e.(fusionActive := false)
  }

  function TurnOnMainProcessing(e: Engine): (r: Engine)
    ensures r.mainProcessingActive && r.fusionActive == e.fusionActive
    ensures r.(mainProcessingActive := e.mainProcessingActive) == e
  {
    e.(mainProcessingActive := true)
  }

  function TurnOffMainProcessing(e: Engine): (r: Engine)
    ensures !r.mainProcessingActive && r.fusionActive == e.fusionActive
    ensures r.(mainProcessingActive := e.mainProcessingActive) == e
  {
    e.(mainProcessingActive := false)
  }

  // ---------------------------------------------------------------------------
  // ProcessFrame

  /** Position of each stage in the pipeline build view → track → read pose →
      fuse → prepare raycast. */
  function Stage(ev: Event): (n: nat) {
    match ev
    case BuildView(_) => 0
    case Track => 1
    case ReadPose(_) => 2
    case Fuse => 3
    case PrepareRaycast => 4
  }

  /** A trace that follows the pipeline order: every event comes from a later
      stage than the ones before it, so no stage occurs twice. */
  predicate InPipelineOrder(t: seq<Event>) {
    forall i, j :: 0 <= i < j < |t| ==> Stage(t[i]) < Stage(t[j])
  }

  /** The pose stored next to a depth image. */
  function FilePose(depthName: string): (p: Pose) {
    PoseOf(FileNames.PoseFileName(depthName))
  }

  /** The events a frame may produce: its own view, the tracker, its own pose
      file, fusion and raycast preparation. */
  predicate BelongsTo(ev: Event, f: Frame) {
    match ev
    case BuildView(name) => name == f.depthName
    case ReadPose(file) => file == FileNames.PoseFileName(f.depthName)
    case _ => true
  }

  /** The pose-file name buffer is only filled when main processing runs; the
      depth name it is copied from is a C string. */
  predicate CanProcess(e: Engine, f: Frame) {
    e.mainProcessingActive ==> FileNames.IsCString(f.depthName) && FileNames.PoseNameFits(f.depthName)
  }

  /** The stage calls of one frame under the given modes. */
  function FrameTrace(e: Engine, f: Frame): (t: seq<Event>)
    ensures InPipelineOrder(t)
    ensures forall ev :: ev in t ==> BelongsTo(ev, f)
    ensures BuildView(f.depthName) in t <==> !f.imu
    ensures Track in t <==> e.mainProcessingActive
    ensures ReadPose(FileNames.PoseFileName(f.depthName)) in t <==> e.mainProcessingActive
    ensures Fuse in t <==> e.mainProcessingActive && e.fusionActive
    ensures PrepareRaycast in t <==> e.mainProcessingActive
  {
    var built := if f.imu then [] else [BuildView(f.depthName)];
    if !e.mainProcessingActive then built
    else
      var fused := if e.fusionActive then [Fuse] else [];
      var t := built + [Track, ReadPose(FileNames.PoseFileName(f.depthName))] + fused + [PrepareRaycast];
      t
  }

  datatype Step = Step(engine: Engine, trace: seq<Event>)

  /** `ProcessFrame`. Without an IMU measurement the view is rebuilt from the
      frame (with one, the source only reports an error). If main processing is
      off, that is all. Otherwise the frame is tracked, its pose file is read,
      it is fused if integration is on, and the raycast is prepared. The first
      processed pose is latched as `firstPose`; every later one is stored in
      `lastPose` relative to it. */
  function ProcessFrame(e: Engine, f: Frame): (s: Step)
    requires CanProcess(e, f)
    ensures s.trace == FrameTrace(e, f)
    ensures SameControl(e, s.engine)
    ensures s.engine.view == if f.imu then e.view else Some(View(f.rgbSize, f.depthSize))
    ensures !e.mainProcessingActive ==>
      && s.engine.useOurState == e.useOurState
      && s.engine.firstPose == e.firstPose && s.engine.lastPose == e.lastPose
    ensures e.mainProcessingActive ==> s.engine.useOurState
    ensures e.mainProcessingActive && !e.useOurState ==>
      s.engine.firstPose == FilePose(f.depthName) && s.engine.lastPose == e.lastPose
    ensures e.mainProcessingActive && e.useOurState ==>
      s.engine.firstPose == e.firstPose && s.engine.lastPose == Relative(FilePose(f.depthName), e.firstPose)
  {
    var viewed := if f.imu then e else e.(view := Some(View(f.rgbSize, f.depthSize)));
    if !e.mainProcessingActive then Step(viewed, FrameTrace(e, f))
    else
      var myState := FilePose(f.depthName);
      var latched := if !e.useOurState then viewed.(firstPose := myState, useOurState := true)
                     else viewed.(lastPose := Relative(myState, e.firstPose));
      Step(latched, FrameTrace(e, f))
  }

  // ---------------------------------------------------------------------------
  // GetImage

  datatype ImageKind =
    | OriginalRgb
    | OriginalDepth
    | SceneRaycast
    | FreeCameraShaded
    | FreeCameraColourFromVolume
    | FreeCameraColourFromNormal
    | UnknownImage

  /** The visualisation engine's render modes. */
  datatype RenderType = RenderShadedGreyscale | RenderColourFromVolume | RenderColourFromNormal

  /** What an output image shows. */
  datatype Content =
    | Cleared
    | ViewRgb
    | ViewDepth
    | ViewDepthUncertainty
    | LiveRaycast
    | FreeRender(renderType: RenderType, pose: Pose)

  datatype Picture = Picture(size: Size, content: Content)

  predicate IsFreeCamera(kind: ImageKind) {
    kind.FreeCameraShaded? || kind.FreeCameraColourFromVolume? || kind.FreeCameraColourFromNormal?
  }

  /** The render mode of a free-camera request. */
  function RenderTypeOf(kind: ImageKind): (t: RenderType)
    requires IsFreeCamera(kind)
    ensures kind == FreeCameraColourFromVolume <==> t == RenderColourFromVolume
    ensures kind == FreeCameraColourFromNormal <==> t == RenderColourFromNormal
    ensures kind == FreeCameraShaded <==> t == RenderShadedGreyscale
  {
    if kind == FreeCameraColourFromVolume then RenderColourFromVolume
    else if kind == FreeCameraColourFromNormal then RenderColourFromNormal
    else RenderShadedGreyscale
  }

  datatype Shown = Shown(engine: Engine, picture: Picture)

  /** `GetImage`. Before the first view exists the output is left untouched.
      Otherwise the output is cleared and filled according to the request; a
      free-camera request creates the free-view render state, sized like the
      output, the first time it is needed and reuses it afterwards. */
  function GetImage(e: Engine, out: Picture, kind: ImageKind, pose: Pose): (s: Shown)
    ensures e.view.None? ==> s == Shown(e, out)
    ensures s.engine == e.(freeview := s.engine.freeview)
    ensures e.freeview.Some? ==> s.engine.freeview == e.freeview
    ensures s.engine.freeview.Some? <==> e.freeview.Some? || (e.view.Some? && IsFreeCamera(kind))
    ensures e.freeview.None? && s.engine.freeview.Some? ==> s.engine.freeview.value.size == out.size
    ensures e.view.Some? ==> match kind
      case OriginalRgb => s.picture == Picture(e.view.value.rgbSize, ViewRgb)
      case OriginalDepth =>
        && s.picture.size == e.view.value.depthSize
        && s.picture.content == (if e.trackerIsWicp then ViewDepthUncertainty else ViewDepth)
      case SceneRaycast => s.picture == Picture(GetImageSize(e), LiveRaycast)
      case UnknownImage => s.picture == Picture(out.size, Cleared)
      case _ => s.picture == Picture(out.size, FreeRender(RenderTypeOf(kind), pose))
  {
    if e.view.None? then Shown(e, out)
    else
      var view := e.view.value;
      var cleared := Picture(out.size, Cleared);
      match kind
      case OriginalRgb => Shown(e, Picture(view.rgbSize, ViewRgb))
      case OriginalDepth =>
        Shown(e, Picture(view.depthSize, if e.trackerIsWicp then ViewDepthUncertainty else ViewDepth))
      case SceneRaycast => Shown(e, Picture(e.live.size, LiveRaycast))
      case UnknownImage => Shown(e, cleared)
      case _ =>
        var freeview := if e.freeview.None? then Some(RenderState(cleared.size)) else e.freeview;
        Shown(e.(freeview := freeview), Picture(cleared.size, FreeRender(RenderTypeOf(kind), pose)))
  }
}

=== FILE: raw_file_reader.dfy ===
/**
 The raw-dump frame reader (`RawFileReader`). Each frame is a pair of raw files
 of `width × height` elements, read with `fopen`/`fread`; the reader caches the
 frame numbered `currentFrameNo` in two nullable slots.
 */
module RawFileReader {
  import opened Wrappers
  import opened Frames
  import opened FileNames

  /** Largest value of the source's `int`. */
  const IntMax: int := 0x7fff_ffff

  datatype Reader = Reader(
    rgbMask: string,
    depthMask: string,
    width: int,
    height: int,
    currentFrameNo: int,
    cachedFrameNo: int,
    cachedRgb: Option<Image>,
    cachedDepth: Option<Image>)

  /** What `fopen` and `fread` give for one file: `None` when the file does not
      open, otherwise the number of elements `fread` returned. */
  type ReadOutcome = Option<nat>

  /** The image size can be allocated and its element count computed in `int`. */
  predicate ValidSize(width: int, height: int) {
    0 <= width && 0 <= height && width * height <= IntMax
  }

  predicate SameConfig(a: Reader, b: Reader) {
    a.rgbMask == b.rgbMask && a.depthMask == b.depthMask && a.width == b.width && a.height == b.height
  }

  function RgbPath(r: Reader, fmt: Formatter): string {
    fmt(r.rgbMask, r.currentFrameNo)
  }

  function DepthPath(r: Reader, fmt: Formatter): string {
    fmt(r.depthMask, r.currentFrameNo)
  }

  predicate PathsFit(r: Reader, fmt: Formatter) {
    |RgbPath(r, fmt)| < PathBufferSize && |DepthPath(r, fmt)| < PathBufferSize
  }

  predicate NeedsLoad(r: Reader) {
    r.cachedFrameNo != r.currentFrameNo
  }

  /** What loading the current frame requires of the reader. */
  predicate LoadFits(r: Reader, fmt: Formatter) {
    ValidSize(r.width, r.height) && PathsFit(r, fmt)
  }

  /** A read succeeds only when the file opens and `fread` returns exactly
      `width × height` elements. */
  predicate ReadSucceeds(r: Reader, outcome: ReadOutcome) {
    outcome.Some? && outcome.value == r.width * r.height
  }

  /** The constructor: frame 0, nothing cached yet. */
  function Create(rgbMask: string, depthMask: string, width: int, height: int): (r: Reader)
    ensures r.currentFrameNo == 0 && r.cachedFrameNo == -1
    ensures r.cachedRgb.None? && r.cachedDepth.None?
    ensures r.rgbMask == rgbMask && r.depthMask == depthMask && r.width == width && r.height == height
  {
    Reader(rgbMask, depthMask, width, height, 0, -1, None, None)
  }

  /** `loadIntoCache`. Nothing happens when the current frame is already cached;
      otherwise each slot receives its file when the read succeeds and is left
      empty when it fails. */
  function LoadIntoCache(r: Reader, fmt: Formatter, rgbRead: ReadOutcome, depthRead: ReadOutcome): (r': Reader)
    requires NeedsLoad(r) ==> LoadFits(r, fmt)
    ensures !NeedsLoad(r) ==> r' == r
    ensures !NeedsLoad(r') && r'.currentFrameNo == r.currentFrameNo && SameConfig(r, r')
    ensures NeedsLoad(r) ==>
      && (r'.cachedRgb.Some? <==> rgbRead.Some? && rgbRead.value == r.width * r.height)
      && (r'.cachedRgb.Some? ==> r'.cachedRgb.value == Loaded(RgbPath(r, fmt)))
      && (r'.cachedDepth.Some? <==> depthRead.Some? && depthRead.value == r.width * r.height)
      && (r'.cachedDepth.Some? ==> r'.cachedDepth.value == Loaded(DepthPath(r, fmt)))
  {
    if !NeedsLoad(r) then r
    else
      r.(cachedFrameNo := r.currentFrameNo,
         cachedRgb := if ReadSucceeds(r, rgbRead) then Some(Loaded(RgbPath(r, fmt))) else None,
         cachedDepth := if ReadSucceeds(r, depthRead) then Some(Loaded(DepthPath(r, fmt))) else None)
  }

  datatype Probe = Probe(reader: Reader, more: bool)

  /** `hasMoreImages`: load the current frame if needed, then report whether at
      least one slot holds an image. */
  function HasMoreImages(r: Reader, fmt: Formatter, rgbRead: ReadOutcome, depthRead: ReadOutcome): (p: Probe)
    requires NeedsLoad(r) ==> LoadFits(r, fmt)
    ensures p.reader == LoadIntoCache(r, fmt, rgbRead, depthRead)
    ensures p.more <==> p.reader.cachedRgb.Some? || p.reader.cachedDepth.Some?
    ensures NeedsLoad(r) ==> (p.more <==> ReadSucceeds(r, rgbRead) || ReadSucceeds(r, depthRead))
  {
    var loaded := LoadIntoCache(r, fmt, rgbRead, depthRead);
    Probe(loaded, loaded.cachedRgb.Some? || loaded.cachedDepth.Some?)
  }

  datatype Delivery = Delivery(reader: Reader, rgb: Image, depth: Image)

  /** What `getImages` requires: loading is possible when the cache is empty. */
  predicate GetFits(r: Reader, fmt: Formatter) {
    r.cachedRgb.None? && r.cachedDepth.None? && NeedsLoad(r) ==> LoadFits(r, fmt)
  }

  /** `getImages`: hand over the cached images, emptying their slots; when
      neither slot holds an image, load the current frame into the cache instead
      (the caller's buffers keep what they held). The frame number then advances. */
  function GetImages(r: Reader, fmt: Formatter, rgb: Image, depth: Image,
                     rgbRead: ReadOutcome, depthRead: ReadOutcome): (d: Delivery)
    requires GetFits(r, fmt)
    ensures d.reader.currentFrameNo == r.currentFrameNo + 1
    ensures SameConfig(r, d.reader)
    ensures d.rgb == (if r.cachedRgb.Some? then r.cachedRgb.value else rgb)
    ensures d.depth == (if r.cachedDepth.Some? then r.cachedDepth.value else depth)
    ensures r.cachedRgb.Some? || r.cachedDepth.Some? ==>
      d.reader.cachedRgb.None? && d.reader.cachedDepth.None? && d.reader.cachedFrameNo == r.cachedFrameNo
    ensures r.cachedRgb.None? && r.cachedDepth.None? ==>
      d.reader.cachedFrameNo == r.currentFrameNo == d.reader.currentFrameNo - 1
    ensures r.cachedRgb.None? && r.cachedDepth.None? && NeedsLoad(r) ==>
      && (d.reader.cachedRgb.Some? <==> ReadSucceeds(r, rgbRead))
      && (d.reader.cachedDepth.Some? <==> ReadSucceeds(r, depthRead))
    ensures r.cachedRgb.None? && r.cachedDepth.None? ==>
      d.reader == LoadIntoCache(r, fmt, rgbRead, depthRead).(currentFrameNo := r.currentFrameNo + 1)
  {
    var usedCache := r.cachedRgb.Some? || r.cachedDepth.Some?;
    var rgb' := if r.cachedRgb.Some? then r.cachedRgb.value else rgb;
    var depth' := if r.cachedDepth.Some? then r.cachedDepth.value else depth;
    var emptied := r.(cachedRgb := None, cachedDepth := None);
    var after := if usedCache then emptied else LoadIntoCache(emptied, fmt, rgbRead, depthRead);
    Delivery(after.(currentFrameNo := r.currentFrameNo + 1), rgb', depth')
  }

  // ---------------------------------------------------------------------------
  // The cache protocol over several calls

  /** Loading is idempotent: once the current frame is cached, a second load
      neither reads again nor changes anything, whatever its reads would give. */
  lemma LoadIntoCacheIdempotent(r: Reader, fmt: Formatter, rgbRead: ReadOutcome, depthRead: ReadOutcome,
                                rgbRead': ReadOutcome, depthRead': ReadOutcome)
    requires NeedsLoad(r) ==> LoadFits(r, fmt)
    ensures var once := LoadIntoCache(r, fmt, rgbRead, depthRead);
      LoadIntoCache(once, fmt, rgbRead', depthRead') == once
  {
  }

  /** One turn of the reading loop: a successful probe followed by `getImages`
      delivers the files the probe loaded, empties the cache and moves on to a
      frame that is not cached yet. */
  lemma ProbeThenGetImages(r: Reader, fmt: Formatter, rgb: Image, depth: Image,
                           rgbRead: ReadOutcome, depthRead: ReadOutcome, rgbRead': ReadOutcome, depthRead': ReadOutcome)
    requires NeedsLoad(r) && LoadFits(r, fmt)
    requires ReadSucceeds(r, rgbRead) && ReadSucceeds(r, depthRead)
    ensures var p := HasMoreImages(r, fmt, rgbRead, depthRead);
      && p.more
      && var d := GetImages(p.reader, fmt, rgb, depth, rgbRead', depthRead');
      && d.rgb == Loaded(RgbPath(r, fmt)) && d.depth == Loaded(DepthPath(r, fmt))
      && d.reader.cachedRgb.None? && d.reader.cachedDepth.None?
      && d.reader.currentFrameNo == r.currentFrameNo + 1
      && NeedsLoad(d.reader)
  {
  }

  /** Without a probe in between, `getImages` runs one frame behind: on an empty
      cache it only loads frame n and moves to n + 1, the next call delivers
      frame n's files and moves to n + 2, so frame n + 1 is never opened. */
  lemma GetImagesWithoutProbeSkipsAFrame(r: Reader, fmt: Formatter, rgb: Image, depth: Image, read: ReadOutcome)
    requires r.cachedRgb.None? && r.cachedDepth.None? && NeedsLoad(r) && LoadFits(r, fmt)
    requires ReadSucceeds(r, read)
    ensures var first := GetImages(r, fmt, rgb, depth, read, read);
      && first.rgb == rgb && first.depth == depth
      && GetFits(first.reader, fmt)
      && var second := GetImages(first.reader, fmt, first.rgb, first.depth, read, read);
      && second.rgb == Loaded(RgbPath(r, fmt)) && second.depth == Loaded(DepthPath(r, fmt))
      && second.reader.currentFrameNo == r.currentFrameNo + 2
      && second.reader.cachedFrameNo == r.currentFrameNo
  {
  }

  /** The cache never runs ahead of the reader: the cached frame number is at
      most the current one. */
  predicate CacheNotAhead(r: Reader) {
    r.cachedFrameNo <= r.currentFrameNo
  }

  /** The constructor establishes `CacheNotAhead`, every operation keeps it, and
      after every `getImages` the next probe has to load a new frame. */
  lemma ProtocolInvariant(r: Reader, fmt: Formatter, rgb: Image, depth: Image,
                          rgbRead: ReadOutcome, depthRead: ReadOutcome,
                          rgbMask: string, depthMask: string, width: int, height: int)
    ensures CacheNotAhead(Create(rgbMask, depthMask, width, height))
    ensures CacheNotAhead(r) && (NeedsLoad(r) ==> LoadFits(r, fmt)) ==>
      && CacheNotAhead(LoadIntoCache(r, fmt, rgbRead, depthRead))
      && CacheNotAhead(HasMoreImages(r, fmt, rgbRead, depthRead).reader)
    ensures CacheNotAhead(r) && GetFits(r, fmt) ==>
      var d := GetImages(r, fmt, rgb, depth, rgbRead, depthRead);
      CacheNotAhead(d.reader) && NeedsLoad(d.reader)
  {
  }
}

=== FILE: wrappers.dfy ===
/** Nullable slots of the source (a pointer that is either NULL or owns a value). */
module Wrappers {

  datatype Option<+T> = None | Some(value: T)
}
